=== FILE: README.md ===
# Meshtastic web console: share links and command palette

This project is a Dafny model of two self-contained parts of the Meshtastic
web console's user interface, with proofs about each.

- **The channel share dialog** (`src/components/Dialog/QRDialog.tsx`). The
  operator ticks channels. The dialog keeps the list of ticked channel
  indices, picks the settings of the ticked channels in channel-table order,
  and serialises them with the LoRa configuration. It then base64-encodes the
  bytes (section 4 of RFC 4648), strips the `=` padding (allowed by RFC 4648
  section 3.2), switches to the URL-safe alphabet (RFC 4648 section 5) and puts
  `https://meshtastic.org/e/#` in front. The checkbox labels and the
  disabled rule are modelled too.
- **The command palette** (`src/components/CommandPalette/Index.tsx`). It
  searches groups of named commands by case-insensitive substring match on
  `"<group> <command>"` and drops empty groups. Its `(query, open)` state
  responds to Cmd/Ctrl+K, combobox changes, the dialog closing and the end of
  the closing transition. The search box's `setQuery`
  (`src/components/CommandPalette/Index.tsx:273`) and the combobox's text
  change have the same effect, and both are the event `Typed`. It shows
  either the full list, the search results
  or a "no results" message.

Files (one module each):

| file | module | contents |
|---|---|---|
| `wrappers.dfy` | `Wrappers` | `Option`, `Result` |
| `base64.dfy` | `Base64` | padded base64 encoder and its strict inverse |
| `url_token.dfy` | `UrlToken` | padding removal, alphabet substitution, token decoder |
| `channel_share.dfy` | `ChannelShare` | channels, selection toggling, settings filter, share URL, labels |
| `palette_search.dfy` | `PaletteSearch` | ASCII lower-casing, substring search, the group filter |
| `palette_state.dfy` | `PaletteState` | palette state machine and view choice |

The channel-set wire encoding (`Protobuf.ChannelSet.toBinary`) belongs to the
firmware schema. It is the function parameter `serialize`, and the LoRa
configuration it carries is the type parameter `L`. The source contains no
decoder. `Base64.Decode`, `UrlToken.DecodeToken` and
`ChannelShare.ParseShareUrl` are strict decoders defined here as the encoders'
partners. They reject leftover non-zero bits and any character outside the
alphabet, so a real receiving decoder may accept more. Each one is proved to
accept exactly the outputs of its encoder.

Two details of the code that the model keeps:

- The selection is a list, not a set. Unticking removes every occurrence and
  ticking appends at the end. The model proves that only membership reaches
  the link.
- Channels whose `settings` are absent are dropped from the encoded list,
  after the selection filter.

## Model

| member | source | states |
|---|---|---|
| `Base64.CharToIndex` | src/components/Dialog/QRDialog.tsx:45 | a character has a six-bit value iff it is in the RFC 4648 section 4 alphabet, and that value encodes back to the same character |
| `Base64.Encode` | src/components/Dialog/QRDialog.tsx:45 | the padded encoding of n bytes has 4·⌈n/3⌉ characters (3·length = 4·(n + padding)) |
| `Base64.EncodeShape` | src/components/Dialog/QRDialog.tsx:45 | an encoding is alphabet characters followed by exactly 0, 2 or 1 `=` for n mod 3 = 0, 1 or 2 |
| `Base64.DecodeEncode` | src/components/Dialog/QRDialog.tsx:45 | decoding the encoding of any byte sequence gives that sequence back |
| `Base64.EncodeDecode` | src/components/Dialog/QRDialog.tsx:45 | any string that decodes to some bytes is exactly their encoding (decoding is strict) |
| `Base64.DecodeIffEncode` | src/components/Dialog/QRDialog.tsx:45 | `Decode(s) == Success(b)` iff `s == Encode(b)` |
| `UrlToken.RemoveAll` | src/components/Dialog/QRDialog.tsx:46 | removing `=` leaves no `=` and keeps every other character; a string without `=` is unchanged |
| `UrlToken.Token` | src/components/Dialog/QRDialog.tsx:45-48 | the token contains no `=`, `+` or `/` |
| `UrlToken.ReplaceAll` | src/components/Dialog/QRDialog.tsx:47-48 | a global single-character replace keeps the length and changes exactly the matching positions |
| `UrlToken.StripPadding` | src/components/Dialog/QRDialog.tsx:45-46 | stripping `=` from an encoding leaves exactly its alphabet body |
| `UrlToken.TokenAlphabet` | src/components/Dialog/QRDialog.tsx:45-48 | every token character is in the RFC 4648 section 5 alphabet, so there is no `+`, `/` or `=` |
| `UrlToken.TokenLength` | src/components/Dialog/QRDialog.tsx:45-48 | a token for n bytes has 4·⌊n/3⌋ characters plus 0, 2 or 3 for n mod 3 = 0, 1 or 2 |
| `UrlToken.DecodeTokenRoundTrip` | src/components/Dialog/QRDialog.tsx:39-48 | restoring the padding, mapping `-`→`+` and `_`→`/`, then decoding gives exactly the serialised bytes |
| `UrlToken.DecodeTokenCanonical` | src/components/Dialog/QRDialog.tsx:45-48 | a string that decodes as a token to some bytes is exactly the token of those bytes |
| `UrlToken.DecodeTokenIff` | src/components/Dialog/QRDialog.tsx:45-48 | `DecodeToken(t) == Success(b)` iff `t == Token(b)` |
| `ChannelShare.KeepSelected` | src/components/Dialog/QRDialog.tsx:36 | a channel is kept iff it is in the table and its index is in the selection; a single channel is kept alone or dropped (with `KeepSelectedConcat` this fixes order and multiplicity) |
| `ChannelShare.SettingsOf` | src/components/Dialog/QRDialog.tsx:37 | each channel is projected to its own optional settings, position by position |
| `ChannelShare.Present` | src/components/Dialog/QRDialog.tsx:38 | absent settings are dropped and every present one is kept; a single entry gives its value or nothing (with `PresentConcat` this fixes order and multiplicity) |
| `ChannelShare.SettingsToEncode` | src/components/Dialog/QRDialog.tsx:35-38 | a settings value is encoded iff some channel with a selected index carries it |
| `ChannelShare.KeepSelectedConcat` | src/components/Dialog/QRDialog.tsx:36 | the selection filter works channel by channel: the result for `a + b` is the result for `a`, then for `b` |
| `ChannelShare.PresentConcat` | src/components/Dialog/QRDialog.tsx:38 | dropping absent settings works entry by entry: the result for `a + b` is the result for `a`, then for `b` |
| `ChannelShare.SettingsToEncodeConcat` | src/components/Dialog/QRDialog.tsx:35-38 | the list for `a + b` is the list for `a` followed by the list for `b`, so channel-table order is kept |
| `ChannelShare.SettingsToEncodeSingle` | src/components/Dialog/QRDialog.tsx:35-38 | one channel contributes its settings iff its index is selected and it has settings |
| `ChannelShare.SelectionMembershipOnly` | src/components/Dialog/QRDialog.tsx:36 | selections with the same members give the same settings, whatever their order or repetition |
| `ChannelShare.ShareUrl` | src/components/Dialog/QRDialog.tsx:34-51 | the link starts with `https://meshtastic.org/e/#`, and reading it back gives exactly the serialised channel set of the selected settings and the LoRa config |
| `ChannelShare.ParseShareUrlIff` | src/components/Dialog/QRDialog.tsx:50 | a string reads back as bytes `b` iff it is the fixed prefix followed by the token of `b` |
| `ChannelShare.ShareUrlMembershipOnly` | src/components/Dialog/QRDialog.tsx:34-51 | the link depends on the selection only through which indices it contains |
| `ChannelShare.Without` | src/components/Dialog/QRDialog.tsx:94 | filtering out an index keeps exactly the other members; a single element is kept iff it differs from the index |
| `ChannelShare.Toggle` | src/components/Dialog/QRDialog.tsx:91-101 | toggling flips the index's membership and no other; an absent index is appended at the end |
| `ChannelShare.WithoutConcat` | src/components/Dialog/QRDialog.tsx:94 | removal works element by element, so the remaining members keep their order and multiplicity |
| `ChannelShare.ToggleAbsentTwice` | src/components/Dialog/QRDialog.tsx:91-101 | toggling an unselected index twice restores the list exactly |
| `ChannelShare.ToggleKeepsDistinct` | src/components/Dialog/QRDialog.tsx:91-101 | toggling keeps a duplicate-free selection duplicate-free |
| `ChannelShare.Click` | src/components/Dialog/QRDialog.tsx:79-101 | a click on a disabled checkbox (index 0 or role DISABLED) changes nothing; any other click flips that channel's checked state, and every other channel's checked state is unchanged |
| `ChannelShare.SelectionInvariant` | src/components/Dialog/QRDialog.tsx:79-101 | from the initial `[0]`, after any clicks, index 0 is still selected and no index appears twice |
| `ChannelShare.SelectionAfter` | src/components/Dialog/QRDialog.tsx:30-101 | with no clicks the selection is the initial `[0]`; afterwards every selected index other than 0 is that of a clicked, enabled checkbox |
| `ChannelShare.CheckboxDisabled` | src/components/Dialog/QRDialog.tsx:79-82 | the checkbox is disabled exactly for index 0 and for role DISABLED (a definition, no contract) |
| `ChannelShare.DecimalRoundTrip` | src/components/Dialog/QRDialog.tsx:88 | the decimal text of a channel index (with `-` when negative) reads back as that index |
| `ChannelShare.IntToDecimal` | src/components/Dialog/QRDialog.tsx:88 | the printed index is non-empty, starts with `-` iff the index is negative, is otherwise decimal digits, and has no leading zero (only 0 itself starts with `0`) |
| `ChannelShare.ChannelLabel` | src/components/Dialog/QRDialog.tsx:83-89 | a checkbox label is never empty; a named channel is labelled by its name, and an unnamed PRIMARY channel by `Primary` |
| `ChannelShare.LabelShowsIndex` | src/components/Dialog/QRDialog.tsx:83-89 | an unnamed non-primary channel is labelled `Channel: ` followed by the canonical decimal of its index (no leading zeros, `-` when negative), which reads back as the index |
| `ChannelShare.LabelsDistinguishIndices` | src/components/Dialog/QRDialog.tsx:83-89 | unnamed non-primary channels with different indices get different labels |
| `PaletteSearch.Lower` | src/components/CommandPalette/Index.tsx:246-247 | lower-casing keeps the length and maps each character on its own |
| `PaletteSearch.LowerIdempotent` | src/components/CommandPalette/Index.tsx:246-247 | lower-casing twice equals lower-casing once |
| `PaletteSearch.ContainsIff` | src/components/CommandPalette/Index.tsx:245-247 | `includes` holds iff the query occurs at some offset of the text |
| `PaletteSearch.MatchingCommands` | src/components/CommandPalette/Index.tsx:244-248 | a command is kept iff it is in the group and matches, and the kept commands stay in their original order; a single command is kept alone iff it matches |
| `PaletteSearch.Narrow` | src/components/CommandPalette/Index.tsx:241-249 | a narrowed group keeps its name and icon, and its commands are the matching ones in their original order |
| `PaletteSearch.NarrowAll` | src/components/CommandPalette/Index.tsx:240-250 | every group is narrowed in place and none is added or lost |
| `PaletteSearch.MatchingCommandsConcat` | src/components/CommandPalette/Index.tsx:244-248 | commands are matched one by one, so kept commands keep their order and multiplicity |
| `PaletteSearch.DropEmpty` | src/components/CommandPalette/Index.tsx:251 | exactly the groups with commands remain, in order; a single group is kept alone iff it has commands |
| `PaletteSearch.Filtered` | src/components/CommandPalette/Index.tsx:237-251 | an empty query gives no results; no result group is empty; a group is shown iff it is some input group narrowed to a non-empty match; results keep input order |
| `PaletteSearch.DropEmptyConcat` | src/components/CommandPalette/Index.tsx:251 | groups are kept or dropped one by one, so kept groups keep their order and multiplicity |
| `PaletteSearch.KeptIff` | src/components/CommandPalette/Index.tsx:241-251 | for a non-empty query, a command is shown under its own group iff its lower-cased `"<group> <command>"` contains the lower-cased query |
| `PaletteSearch.MatchingSameLowered` | src/components/CommandPalette/Index.tsx:247 | queries with the same lower-cased form select the same commands |
| `PaletteSearch.FilteredIgnoresQueryCase` | src/components/CommandPalette/Index.tsx:247 | searching for `q` and for lowercase(`q`) give the same results |
| `PaletteState.HandleKeydown` | src/components/CommandPalette/Index.tsx:225-230 | after a key press the palette is open iff it was open already or the key is `k` with Meta or Ctrl; otherwise the state is unchanged |
| `PaletteState.OnChange` | src/components/CommandPalette/Index.tsx:264-271 | typed text becomes the query and leaves `open` alone; a picked command closes the palette and fires exactly its own action, once |
| `PaletteState.RunFiresPickedActions` | src/components/CommandPalette/Index.tsx:264-271 | over any run of events, the actions fired are exactly those of the picked commands, in pick order |
| `PaletteState.Step` | src/components/CommandPalette/Index.tsx:255-271 | the close request only closes the palette; the end of the closing transition only clears the query; only a pick fires an action |
| `PaletteState.Run` | src/components/CommandPalette/Index.tsx:225-271 | a run that ends with the closing transition ends with an empty query, one that ends with a close request ends closed, and at most one action fires per event |
| `PaletteState.OpenOnlyByShortcut` | src/components/CommandPalette/Index.tsx:225-230 | a closed palette that ends up open received a Cmd/Ctrl+K key press |
| `PaletteState.OpenFromInitial` | src/components/CommandPalette/Index.tsx:65-66 | from the initial closed, empty state, the palette is open only after a Cmd/Ctrl+K press |
| `PaletteState.PickThenLeave` | src/components/CommandPalette/Index.tsx:257-269 | picking a command closes the palette, and once the closing transition ends the query is empty again |
| `PaletteState.ViewOf` | src/components/CommandPalette/Index.tsx:275-294 | the options list holds the search results, plus the full group list exactly when the query is empty |
| `PaletteState.FilteredNonEmptyIff` | src/components/CommandPalette/Index.tsx:237-251 | for a non-empty query, the results are non-empty iff some command of some group matches |
| `PaletteState.ViewChoice` | src/components/CommandPalette/Index.tsx:275-294 | the full list alone shows iff the query is empty; results show iff it is non-empty and something matches; NoResults shows iff it is non-empty and nothing matches |

## Left out

- The device session layer is not part of this model: device registry, optimistic configuration sync, event fan-out and connections. It lives in stores and the `@meshtastic/meshtasticjs` library, which are not among these files.
- The channel-set wire encoding (`Protobuf.ChannelSet.toBinary`) is the parameter `serialize`. Its format belongs to the firmware schema.
- `ChannelSettings` names only the name and the key. The remaining protobuf fields are one opaque byte sequence, `others`. The dialog never reads them, so only `serialize` looks inside.
- QR rendering, the clipboard, toasts, dialogs, transitions' timing and icons are view concerns and are not modelled. The end of the closing transition is the event `LeaveDone`, and the dialog's close request is `DialogClose`.
- The concrete command table (`src/components/CommandPalette/Index.tsx:72-223`) is not modelled. Its names come from translation tables and its actions call into device stores. The filter is modelled over any group list, and actions are opaque `ActionId` tokens.
- `preventDefault` and the registration of the window key listener are browser side effects and are not modelled.
- ChannelShare.Click: a click on a disabled checkbox is modelled as changing nothing. The handler itself toggles whenever it is called. This assumes the checkbox component imported from `../form/Checkbox.js` (not part of this model) renders a native disabled input that fires no change event. `SelectionInvariant`'s guarantee that index 0 stays selected rests on this assumption.
- PaletteSearch.Lower: lower-cases ASCII letters only. JavaScript's `toLowerCase` also folds non-ASCII letters and can change a string's length. Full Unicode case folding is not modelled.
- Config form pages, HTTP connection setup, class-validator declarations, translations and bootstrapping are outside the modelled core.

=== FILE: base64.dfy ===
/**
  Standard base64 (section 4 of RFC 4648) over byte sequences, with padding.

  `Encode` is the encoder the share link uses (it plays the part of
  `fromByteArray`); `Decode` is its strict inverse: it accepts exactly the
  strings `Encode` produces, so the two are proved to be a bijection between
  byte sequences and canonical base64 strings.
 */
module Base64 {
  import opened Wrappers

  type uint8 = x: int | 0 <= x < 256
  type index64 = x: int | 0 <= x < 64

  datatype DecodeError = BadLength | BadChar(c: char) | BadPadding

  /** A character of the RFC 4648 section 4 alphabet: A-Z, a-z, 0-9, '+' and '/'. */
  predicate IsAlphabetChar(c: char) {
    || 'A' <= c <= 'Z'
    || 'a' <= c <= 'z'
    || '0' <= c <= '9'
    || c == '+'
    || c == '/'
  }

  /** The character that encodes the six-bit value `i`. */
  function IndexToChar(i: index64): (c: char)
    ensures IsAlphabetChar(c)
  {
    if i < 26 then (65 + i) as char
    else if i < 52 then (97 + (i - 26)) as char
    else if i < 62 then (48 + (i - 52)) as char
    else if i == 62 then '+'
    else '/'
  }

  /** The six-bit value a character encodes, if it is in the alphabet. */
  function CharToIndex(c: char): (r: Option<index64>)
    ensures r.Some? <==> IsAlphabetChar(c)
    ensures r.Some? ==> IndexToChar(r.value) == c
  {
    if 'A' <= c <= 'Z' then Some(c as int - 65)
    else if 'a' <= c <= 'z' then Some(c as int - 97 + 26)
    else if '0' <= c <= '9' then Some(c as int - 48 + 52)
    else if c == '+' then Some(62)
    else if c == '/' then Some(63)
    else None
  }

  lemma IndexRoundTrip(i: index64)
    ensures CharToIndex(IndexToChar(i)) == Some(i)
  {
  }

  /** Number of '=' characters that end the encoding of `n` bytes. */
  function PadCount(n: nat): (k: nat)
    ensures k <= 2
    ensures (n + k) % 3 == 0
  {
    if n % 3 == 0 then 0 else if n % 3 == 1 then 2 else 1
  }

  /** Three bytes become four characters, six bits each, high bits first. */
  function EncodeTriple(a: uint8, b: uint8, c: uint8): (s: string)
  {
    [ IndexToChar(a / 4),
      IndexToChar((a % 4) * 16 + b / 16),
      IndexToChar((b % 16) * 4 + c / 64),
      IndexToChar(c % 64) ]
  }

  /** One trailing byte: two characters (low bits zero-filled) and "==". */
  function EncodeFinalOne(a: uint8): (s: string)
  {
    [IndexToChar(a / 4), IndexToChar((a % 4) * 16), '=', '=']
  }

  /** Two trailing bytes: three characters (low bits zero-filled) and "=". */
  function EncodeFinalTwo(a: uint8, b: uint8): (s: string)
  {
    [IndexToChar(a / 4), IndexToChar((a % 4) * 16 + b / 16), IndexToChar((b % 16) * 4), '=']
  }

  function Encode(bytes: seq<uint8>): (s: string)
    ensures 3 * |s| == 4 * (|bytes| + PadCount(|bytes|))
    decreases |bytes|
  {
    if |bytes| == 0 then ""
    else if |bytes| == 1 then EncodeFinalOne(bytes[0])
    else if |bytes| == 2 then EncodeFinalTwo(bytes[0], bytes[1])
    else
      assert PadCount(|bytes|) == PadCount(|bytes| - 3);
      EncodeTriple(bytes[0], bytes[1], bytes[2]) + Encode(bytes[3..])
  }

  /** `s` is alphabet characters followed by exactly `pad` '=' characters. */
  predicate Shaped(s: string, pad: nat) {
    && pad <= |s|
    && (forall i | 0 <= i < |s| - pad :: IsAlphabetChar(s[i]))
    && (forall i | |s| - pad <= i < |s| :: s[i] == '=')
  }

  lemma ShapedPrepend(t: string, rest: string, pad: nat)
    requires |t| == 4 && forall i | 0 <= i < 4 :: IsAlphabetChar(t[i])
    requires Shaped(rest, pad)
    ensures Shaped(t + rest, pad)
  {
    var s := t + rest;
    forall i | 0 <= i < |s| - pad
      ensures IsAlphabetChar(s[i])
    {
      if i >= 4 {
        assert s[i] == rest[i - 4];
      }
    }
    forall i | |s| - pad <= i < |s|
      ensures s[i] == '='
    {
      assert s[i] == rest[i - 4];
    }
  }

  lemma FinalOneShape(a: uint8)
    ensures Shaped(EncodeFinalOne(a), 2)
  {
    var s := EncodeFinalOne(a);
    assert IsAlphabetChar(s[0]) && IsAlphabetChar(s[1]);
  }

  lemma FinalTwoShape(a: uint8, b: uint8)
    ensures Shaped(EncodeFinalTwo(a, b), 1)
  {
    var s := EncodeFinalTwo(a, b);
    assert IsAlphabetChar(s[0]) && IsAlphabetChar(s[1]) && IsAlphabetChar(s[2]);
  }

  /** Every encoding is alphabet characters followed by `PadCount` padding characters. */
  lemma {:induction false} EncodeShape(bytes: seq<uint8>)
    ensures Shaped(Encode(bytes), PadCount(|bytes|))
    decreases |bytes|
  {
    if |bytes| == 1 {
      assert Encode(bytes) == EncodeFinalOne(bytes[0]);
      FinalOneShape(bytes[0]);
    } else if |bytes| == 2 {
      assert Encode(bytes) == EncodeFinalTwo(bytes[0], bytes[1]);
      FinalTwoShape(bytes[0], bytes[1]);
    } else if |bytes| > 2 {
      var t := EncodeTriple(bytes[0], bytes[1], bytes[2]);
      assert Encode(bytes) == t + Encode(bytes[3..]);
      assert PadCount(|bytes|) == PadCount(|bytes[3..]|);
      EncodeShape(bytes[3..]);
      ShapedPrepend(t, Encode(bytes[3..]), PadCount(|bytes|));
    }
  }

  /** The byte whose high six bits are `i0` and low two bits are the top of `i1`. */
  function JoinFirst(i0: index64, i1: index64): uint8 {
    (i0 as int) * 4 + (i1 as int) / 16
  }

  /** The byte made of the low four bits of `i1` and the top four of `i2`. */
  function JoinSecond(i1: index64, i2: index64): uint8 {
    ((i1 as int) % 16) * 16 + (i2 as int) / 4
  }

  /** The byte made of the low two bits of `i2` and all six of `i3`. */
  function JoinThird(i2: index64, i3: index64): uint8 {
    ((i2 as int) % 4) * 64 + (i3 as int)
  }

  /** Four alphabet characters (no padding) become three bytes. */
  function DecodeQuad(s: string): (r: Result<seq<uint8>, DecodeError>)
    requires |s| == 4
  {
    match (CharToIndex(s[0]), CharToIndex(s[1]), CharToIndex(s[2]), CharToIndex(s[3]))
    case (Some(i0), Some(i1), Some(i2), Some(i3)) =>
      Success([JoinFirst(i0, i1), JoinSecond(i1, i2), JoinThird(i2, i3)])
    case _ => Failure(BadChar(FirstBad(s)))
  }

  /** The first character of `s` outside the alphabet, '=' if there is none. */
  function FirstBad(s: string): char
  {
    if |s| == 0 then '='
    else if !IsAlphabetChar(s[0]) then s[0]
    else FirstBad(s[1..])
  }

  /**
    The last quad of an encoding: "xx==" carries one byte and "xxx=" two.
    Bits that padding leaves over must be zero, as `Encode` writes them.
   */
  function DecodeFinalQuad(s: string): (r: Result<seq<uint8>, DecodeError>)
    requires |s| == 4
  {
    if s[2] == '=' && s[3] == '=' then
      match (CharToIndex(s[0]), CharToIndex(s[1]))
      case (Some(i0), Some(i1)) =>
        if i1 % 16 == 0 then Success([JoinFirst(i0, i1)]) else Failure(BadPadding)
      case _ => Failure(BadChar(FirstBad(s[..2])))
    else if s[3] == '=' then
      match (CharToIndex(s[0]), CharToIndex(s[1]), CharToIndex(s[2]))
      case (Some(i0), Some(i1), Some(i2)) =>
        if i2 % 4 == 0 then Success([JoinFirst(i0, i1), JoinSecond(i1, i2)])
        else Failure(BadPadding)
      case _ => Failure(BadChar(FirstBad(s[..3])))
    else DecodeQuad(s)
  }

  /**
    Decodes a padded base64 string quad by quad; padding may only end the
    last quad, and a length that is not a multiple of four is `BadLength`.
   */
  function Decode(s: string): (r: Result<seq<uint8>, DecodeError>)
    decreases |s|
  {
    if |s| == 0 then Success([])
    else if |s| < 4 then Failure(BadLength)
    else if |s| == 4 then DecodeFinalQuad(s)
    else
      match DecodeQuad(s[..4])
      case Failure(e) => Failure(e)
      case Success(head) =>
        match Decode(s[4..])
        case Failure(e) => Failure(e)
        case Success(tail) => Success(head + tail)
  }

  lemma JoinFirstSplits(a: uint8, low: int)
    requires 0 <= low < 16
    ensures JoinFirst(a / 4, (a % 4) * 16 + low) == a
  {
  }

  lemma JoinSecondSplits(b: uint8, high: int, low: int)
    requires 0 <= high < 4 && 0 <= low < 4
    ensures JoinSecond(high * 16 + b / 16, (b % 16) * 4 + low) == b
  {
    assert (high * 16 + b / 16) % 16 == b / 16;
    assert ((b % 16) * 4 + low) / 4 == b % 16;
  }

  lemma JoinThirdSplits(c: uint8, high: int)
    requires 0 <= high < 16
    ensures JoinThird(high * 4 + c / 64, c % 64) == c
  {
  }

  lemma TripleRoundTrip(a: uint8, b: uint8, c: uint8)
    ensures DecodeQuad(EncodeTriple(a, b, c)) == Success([a, b, c])
    ensures DecodeFinalQuad(EncodeTriple(a, b, c)) == Success([a, b, c])
  {
    var i0, i1, i2, i3 := a / 4, (a % 4) * 16 + b / 16, (b % 16) * 4 + c / 64, c % 64;
    IndexRoundTrip(i0);
    IndexRoundTrip(i1);
    IndexRoundTrip(i2);
    IndexRoundTrip(i3);
    JoinFirstSplits(a, b / 16);
    JoinSecondSplits(b, a % 4, c / 64);
    JoinThirdSplits(c, b % 16);
    assert EncodeTriple(a, b, c) == [IndexToChar(i0), IndexToChar(i1), IndexToChar(i2), IndexToChar(i3)];
  }

  lemma FinalOneRoundTrip(a: uint8)
    ensures DecodeFinalQuad(EncodeFinalOne(a)) == Success([a])
  {
    IndexRoundTrip(a / 4);
    IndexRoundTrip((a % 4) * 16);
    JoinFirstSplits(a, 0);
  }

  lemma FinalTwoRoundTrip(a: uint8, b: uint8)
    ensures DecodeFinalQuad(EncodeFinalTwo(a, b)) == Success([a, b])
  {
    IndexRoundTrip(a / 4);
    IndexRoundTrip((a % 4) * 16 + b / 16);
    IndexRoundTrip((b % 16) * 4);
    JoinFirstSplits(a, b / 16);
    JoinSecondSplits(b, a % 4, 0);
  }

  /** A decodable quad in front of decodable quads decodes to the concatenation. */
  lemma DecodeCons(t: string, rest: string)
    requires |t| == 4 && |rest| > 0
    ensures Decode(t + rest) ==
      (match (DecodeQuad(t), Decode(rest))
       case (Success(head), Success(tail)) => Success(head + tail)
       case (Failure(e), _) => Failure(e)
       case (_, Failure(e)) => Failure(e))
  {
    var s := t + rest;
    assert s[..4] == t && s[4..] == rest;
  }

  /** A four-character string decodes as its only, final quad. */
  lemma DecodeSingleQuad(s: string)
    requires |s| == 4
    ensures Decode(s) == DecodeFinalQuad(s)
  {
  }

  lemma ShortSeq<T>(s: seq<T>)
    requires 1 <= |s| <= 3
    ensures |s| == 1 ==> s == [s[0]]
    ensures |s| == 2 ==> s == [s[0], s[1]]
    ensures |s| == 3 ==> s == [s[0], s[1], s[2]]
  {
  }

  lemma DecodeEncodeOne(bytes: seq<uint8>)
    requires |bytes| == 1
    ensures Decode(Encode(bytes)) == Success(bytes)
  {
    var s := EncodeFinalOne(bytes[0]);
    assert Encode(bytes) == s;
    FinalOneRoundTrip(bytes[0]);
    DecodeSingleQuad(s);
    ShortSeq(bytes);
  }

  lemma DecodeEncodeTwo(bytes: seq<uint8>)
    requires |bytes| == 2
    ensures Decode(Encode(bytes)) == Success(bytes)
  {
    var s := EncodeFinalTwo(bytes[0], bytes[1]);
    assert Encode(bytes) == s;
    FinalTwoRoundTrip(bytes[0], bytes[1]);
    DecodeSingleQuad(s);
    ShortSeq(bytes);
  }

  lemma DecodeEncodeThree(bytes: seq<uint8>)
    requires |bytes| == 3
    ensures Decode(Encode(bytes)) == Success(bytes)
  {
    var s := EncodeTriple(bytes[0], bytes[1], bytes[2]);
    assert |bytes[3..]| == 0;
    assert Encode(bytes) == s + Encode(bytes[3..]);
    assert s + Encode(bytes[3..]) == s;
    TripleRoundTrip(bytes[0], bytes[1], bytes[2]);
    DecodeSingleQuad(s);
    ShortSeq(bytes);
  }

  /** Decoding undoes encoding, for every byte sequence. */
  lemma {:induction false} DecodeEncode(bytes: seq<uint8>)
    ensures Decode(Encode(bytes)) == Success(bytes)
    decreases |bytes|
  {
    if |bytes| == 0 {
    } else if |bytes| == 1 {
      DecodeEncodeOne(bytes);
    } else if |bytes| == 2 {
      DecodeEncodeTwo(bytes);
    } else if |bytes| == 3 {
      DecodeEncodeThree(bytes);
    } else {
      DecodeEncode(bytes[3..]);
      DecodeEncodeStep(bytes);
    }
  }

  lemma DecodeEncodeStep(bytes: seq<uint8>)
    requires |bytes| > 3
    requires Decode(Encode(bytes[3..])) == Success(bytes[3..])
    ensures Decode(Encode(bytes)) == Success(bytes)
  {
    var t := EncodeTriple(bytes[0], bytes[1], bytes[2]);
    var rest := Encode(bytes[3..]);
    assert Encode(bytes) == t + rest;
    TripleRoundTrip(bytes[0], bytes[1], bytes[2]);
    DecodeCons(t, rest);
    SplitThree(bytes);
  }

  lemma SplitThree<T>(s: seq<T>)
    requires |s| >= 3
    ensures s == [s[0], s[1], s[2]] + s[3..]
  {
  }

  lemma JoinFirstParts(i0: index64, i1: index64)
    ensures JoinFirst(i0, i1) / 4 == i0 && JoinFirst(i0, i1) % 4 == i1 / 16
  {
  }

  lemma JoinSecondParts(i1: index64, i2: index64)
    ensures JoinSecond(i1, i2) / 16 == i1 % 16 && JoinSecond(i1, i2) % 16 == i2 / 4
  {
  }

  lemma JoinThirdParts(i2: index64, i3: index64)
    ensures JoinThird(i2, i3) / 64 == i2 % 4 && JoinThird(i2, i3) % 64 == i3
  {
  }

  lemma QuadCanonical(s: string, bytes: seq<uint8>)
    requires |s| == 4
    requires DecodeQuad(s) == Success(bytes)
    ensures |bytes| == 3
    ensures EncodeTriple(bytes[0], bytes[1], bytes[2]) == s
  {
    var i0, i1, i2, i3 := CharToIndex(s[0]).value, CharToIndex(s[1]).value,
                          CharToIndex(s[2]).value, CharToIndex(s[3]).value;
    JoinFirstParts(i0, i1);
    JoinSecondParts(i1, i2);
    JoinThirdParts(i2, i3);
  }

  lemma FinalQuadCanonical(s: string, bytes: seq<uint8>)
    requires |s| == 4
    requires DecodeFinalQuad(s) == Success(bytes)
    ensures 1 <= |bytes| <= 3
    ensures |bytes| == 1 ==> EncodeFinalOne(bytes[0]) == s
    ensures |bytes| == 2 ==> EncodeFinalTwo(bytes[0], bytes[1]) == s
    ensures |bytes| == 3 ==> EncodeTriple(bytes[0], bytes[1], bytes[2]) == s
  {
    if s[2] == '=' && s[3] == '=' {
      var i0, i1 := CharToIndex(s[0]).value, CharToIndex(s[1]).value;
      JoinFirstParts(i0, i1);
    } else if s[3] == '=' {
      var i0, i1, i2 := CharToIndex(s[0]).value, CharToIndex(s[1]).value, CharToIndex(s[2]).value;
      JoinFirstParts(i0, i1);
      JoinSecondParts(i1, i2);
    } else {
      QuadCanonical(s, bytes);
    }
  }

  /** Only canonical encodings decode: a successful decode re-encodes to its input. */
  lemma {:induction false} EncodeDecode(s: string, bytes: seq<uint8>)
    requires Decode(s) == Success(bytes)
    ensures Encode(bytes) == s
    decreases |s|
  {
    if |s| == 0 {
    } else if |s| < 4 {
      assert false;
    } else if |s| == 4 {
      FinalQuadCanonical(s, bytes);
    } else {
      var t, rest := s[..4], s[4..];
      assert s == t + rest;
      DecodeCons(t, rest);
      var head, tail := DecodeQuad(t).value, Decode(rest).value;
      assert bytes == head + tail;
      QuadCanonical(t, head);
      EncodeDecode(rest, tail);
      assert bytes[..3] == head && bytes[3..] == tail;
      assert Encode(bytes) == EncodeTriple(bytes[0], bytes[1], bytes[2]) + Encode(bytes[3..]);
    }
  }

  /** `Decode` and `Encode` are inverse bijections. */
  lemma DecodeIffEncode(s: string, bytes: seq<uint8>)
    ensures Decode(s) == Success(bytes) <==> s == Encode(bytes)
  {
    if s == Encode(bytes) {
      DecodeEncode(bytes);
    }
    if Decode(s) == Success(bytes) {
      EncodeDecode(s, bytes);
    }
  }
}

=== FILE: channel_share.dfy ===
/**
  The share dialog's link builder: which channels go into the shared
  channel set, how the checkbox selection evolves, how each checkbox is
  labelled and enabled, and the link itself.

  The channel-set wire encoding belongs to the firmware's schema and is not
  interpreted here: it is the parameter `serialize`, and the radio
  configuration it carries is the type parameter `L`.
 */
module ChannelShare {
  import opened Wrappers
  import opened Base64
  import UrlToken

  /** A channel's role in the device's channel table. */
  datatype Role = Disabled | Primary | Secondary

  /**
    Channel settings. Only the name is ever read here; the key and the
    remaining protobuf fields (`others`, kept as opaque bytes) travel
    unchanged into the serialised channel set.
   */
  datatype ChannelSettings = ChannelSettings(name: string, psk: seq<uint8>, others: seq<uint8>)

  /** One slot of the channel table; its settings may be absent. */
  datatype Channel = Channel(index: int, settings: Option<ChannelSettings>, role: Role)

  /** What the link carries: the radio configuration and the chosen settings. */
  datatype ChannelSet<L> = ChannelSet(loraConfig: Option<L>, settings: seq<ChannelSettings>)

  datatype ShareError = NotAShareLink | MalformedToken(reason: DecodeError)

  const ShareUrlPrefix: string := "https://meshtastic.org/e/#"

  /** The dialog opens with only the primary channel selected. */
  const InitialSelection: seq<int> := [0]

  // ---------------------------------------------------------------------
  // Which settings are encoded
  // ---------------------------------------------------------------------

  /** Channels whose index is selected, in channel-table order. */
  function KeepSelected(channels: seq<Channel>, selection: seq<int>): (r: seq<Channel>)
    ensures forall c :: c in r <==> c in channels && c.index in selection
    ensures |channels| == 1 ==> r == (if channels[0].index in selection then channels else [])
    decreases |channels|
  {
    if |channels| == 0 then []
    else
      var head := if channels[0].index in selection then [channels[0]] else [];
      head + KeepSelected(channels[1..], selection)
  }

  /** The (possibly absent) settings of each channel, position by position. */
  function SettingsOf(channels: seq<Channel>): (r: seq<Option<ChannelSettings>>)
    ensures |r| == |channels|
    ensures forall i | 0 <= i < |channels| :: r[i] == channels[i].settings
    decreases |channels|
  {
    if |channels| == 0 then []
    else [channels[0].settings] + SettingsOf(channels[1..])
  }

  /** The settings that are present, absent ones dropped, order kept. */
  function Present(options: seq<Option<ChannelSettings>>): (r: seq<ChannelSettings>)
    ensures forall s :: s in r <==> Some(s) in options
    ensures |r| <= |options|
    ensures |options| == 1 ==> r == (if options[0].Some? then [options[0].value] else [])
    decreases |options|
  {
    if |options| == 0 then []
    else
      var head := if options[0].Some? then [options[0].value] else [];
      head + Present(options[1..])
  }

  /** The settings list of the shared channel set: select, project, drop absent. */
  function SettingsToEncode(channels: seq<Channel>, selection: seq<int>): (r: seq<ChannelSettings>)
    ensures forall s :: s in r <==>
      exists i | 0 <= i < |channels| :: channels[i].index in selection && channels[i].settings == Some(s)
  {
    var kept := KeepSelected(channels, selection);
    var r := Present(SettingsOf(kept));
    forall s
      ensures s in r <==>
        exists i | 0 <= i < |channels| :: channels[i].index in selection && channels[i].settings == Some(s)
    {
      if s in r {
        var j :| 0 <= j < |kept| && SettingsOf(kept)[j] == Some(s);
        var c := kept[j];
        assert c in channels;
        var i :| 0 <= i < |channels| && channels[i] == c;
      }
      if exists i | 0 <= i < |channels| :: channels[i].index in selection && channels[i].settings == Some(s) {
        var i :| 0 <= i < |channels| && channels[i].index in selection && channels[i].settings == Some(s);
        assert channels[i] in kept;
        var j :| 0 <= j < |kept| && kept[j] == channels[i];
        assert SettingsOf(kept)[j] == Some(s);
      }
    }
    r
  }

  lemma {:induction false} KeepSelectedConcat(a: seq<Channel>, b: seq<Channel>, selection: seq<int>)
    ensures KeepSelected(a + b, selection) == KeepSelected(a, selection) + KeepSelected(b, selection)
    decreases |a|
  {
    if |a| == 0 {
      assert a + b == b;
    } else {
      assert (a + b)[1..] == a[1..] + b;
      KeepSelectedConcat(a[1..], b, selection);
    }
  }

  lemma {:induction false} SettingsOfConcat(a: seq<Channel>, b: seq<Channel>)
    ensures SettingsOf(a + b) == SettingsOf(a) + SettingsOf(b)
  {
  }

  lemma {:induction false} PresentConcat(a: seq<Option<ChannelSettings>>, b: seq<Option<ChannelSettings>>)
    ensures Present(a + b) == Present(a) + Present(b)
    decreases |a|
  {
    if |a| == 0 {
      assert a + b == b;
    } else {
      assert (a + b)[1..] == a[1..] + b;
      PresentConcat(a[1..], b);
    }
  }

  /**
    The settings list is built channel by channel in table order: the list
    for `a + b` is the list for `a` followed by the list for `b`.
   */
  lemma SettingsToEncodeConcat(a: seq<Channel>, b: seq<Channel>, selection: seq<int>)
    ensures SettingsToEncode(a + b, selection) == SettingsToEncode(a, selection) + SettingsToEncode(b, selection)
  {
    KeepSelectedConcat(a, b, selection);
    SettingsOfConcat(KeepSelected(a, selection), KeepSelected(b, selection));
    PresentConcat(SettingsOf(KeepSelected(a, selection)), SettingsOf(KeepSelected(b, selection)));
  }

  /** A single channel contributes its settings iff it is selected and has settings. */
  lemma SettingsToEncodeSingle(c: Channel, selection: seq<int>)
    ensures SettingsToEncode([c], selection) ==
      if c.index in selection && c.settings.Some? then [c.settings.value] else []
  {
    assert [c][1..] == [];
    var kept := KeepSelected([c], selection);
    assert KeepSelected([], selection) == [];
    assert kept == (if c.index in selection then [c] else []) + [];
    if c.index in selection {
      assert SettingsOf(kept) == [c.settings];
      assert [c.settings][1..] == [];
    }
  }

  /**
    Only membership of the selection matters: two selections with the same
    members (in any order, with any repetition) encode the same settings.
   */
  lemma {:induction false} SelectionMembershipOnly(channels: seq<Channel>, s1: seq<int>, s2: seq<int>)
    requires forall i :: i in s1 <==> i in s2
    ensures SettingsToEncode(channels, s1) == SettingsToEncode(channels, s2)
    decreases |channels|
  {
    if |channels| > 0 {
      assert channels == [channels[0]] + channels[1..];
      SettingsToEncodeConcat([channels[0]], channels[1..], s1);
      SettingsToEncodeConcat([channels[0]], channels[1..], s2);
      SettingsToEncodeSingle(channels[0], s1);
      SettingsToEncodeSingle(channels[0], s2);
      SelectionMembershipOnly(channels[1..], s1, s2);
    }
  }

  // ---------------------------------------------------------------------
  // The link
  // ---------------------------------------------------------------------

  /** The channel set the dialog encodes for the current selection. */
  function SharedChannelSet<L>(channels: seq<Channel>, selection: seq<int>, loraConfig: Option<L>): ChannelSet<L> {
    ChannelSet(loraConfig, SettingsToEncode(channels, selection))
  }

  /** Reads a share link back into the serialised channel set it carries. */
  function ParseShareUrl(url: string): (r: Result<seq<uint8>, ShareError>)
    ensures r.Success? ==> |url| >= |ShareUrlPrefix| && url[..|ShareUrlPrefix|] == ShareUrlPrefix
  {
    if |url| < |ShareUrlPrefix| || url[..|ShareUrlPrefix|] != ShareUrlPrefix then Failure(NotAShareLink)
    else
      match UrlToken.DecodeToken(url[|ShareUrlPrefix|..])
      case Success(bytes) => Success(bytes)
      case Failure(e) => Failure(MalformedToken(e))
  }

  /**
    The share link: the fixed prefix, then the token of the serialised
    channel set. Reading the link back yields exactly those bytes.
   */
  function ShareUrl<L>(channels: seq<Channel>, selection: seq<int>, loraConfig: Option<L>,
                       serialize: ChannelSet<L> -> seq<uint8>): (url: string)
    ensures |url| >= |ShareUrlPrefix| && url[..|ShareUrlPrefix|] == ShareUrlPrefix
    ensures ParseShareUrl(url) == Success(serialize(SharedChannelSet(channels, selection, loraConfig)))
  {
    var bytes := serialize(SharedChannelSet(channels, selection, loraConfig));
    var url := ShareUrlPrefix + UrlToken.Token(bytes);
    assert url[|ShareUrlPrefix|..] == UrlToken.Token(bytes);
    UrlToken.DecodeTokenRoundTrip(bytes);
    url
  }

  /** A string parses to `bytes` exactly when it is the prefix followed by their token. */
  lemma ParseShareUrlIff(url: string, bytes: seq<uint8>)
    ensures ParseShareUrl(url) == Success(bytes) <==> url == ShareUrlPrefix + UrlToken.Token(bytes)
  {
    if url == ShareUrlPrefix + UrlToken.Token(bytes) {
      assert url[..|ShareUrlPrefix|] == ShareUrlPrefix;
      assert url[|ShareUrlPrefix|..] == UrlToken.Token(bytes);
      UrlToken.DecodeTokenRoundTrip(bytes);
    }
    if ParseShareUrl(url) == Success(bytes) {
      UrlToken.DecodeTokenCanonical(url[|ShareUrlPrefix|..], bytes);
      assert url == url[..|ShareUrlPrefix|] + url[|ShareUrlPrefix|..];
    }
  }

  /** The link only depends on which indices are selected, not on their order or repetition. */
  lemma ShareUrlMembershipOnly<L>(channels: seq<Channel>, s1: seq<int>, s2: seq<int>,
                                  loraConfig: Option<L>, serialize: ChannelSet<L> -> seq<uint8>)
    requires forall i :: i in s1 <==> i in s2
    ensures ShareUrl(channels, s1, loraConfig, serialize) == ShareUrl(channels, s2, loraConfig, serialize)
  {
    SelectionMembershipOnly(channels, s1, s2);
  }

  // ---------------------------------------------------------------------
  // The selection
  // ---------------------------------------------------------------------

  /** `s` with every occurrence of `x` removed, order kept. */
  function Without(s: seq<int>, x: int): (r: seq<int>)
    ensures forall y :: y in r <==> y in s && y != x
    ensures |r| <= |s|
    ensures |s| == 1 ==> r == (if s[0] == x then [] else s)
    decreases |s|
  {
    if |s| == 0 then []
    else
      var head := if s[0] == x then [] else [s[0]];
      head + Without(s[1..], x)
  }

  /** Removal works element by element: `Without` of `a + b` is `Without` of each, joined. */
  lemma {:induction false} WithoutConcat(a: seq<int>, b: seq<int>, x: int)
    ensures Without(a + b, x) == Without(a, x) + Without(b, x)
    decreases |a|
  {
    if |a| == 0 {
      assert a + b == b;
    } else {
      assert (a + b)[1..] == a[1..] + b;
      WithoutConcat(a[1..], b, x);
    }
  }

  /**
    A checkbox change: a selected index is removed (every occurrence), an
    unselected one is appended at the end.
   */
  function Toggle(selection: seq<int>, index: int): (r: seq<int>)
    ensures index in r <==> index !in selection
    ensures forall y | y != index :: y in r <==> y in selection
    ensures index !in selection ==> r == selection + [index]
  {
    if index in selection then Without(selection, index) else selection + [index]
  }

  predicate NoDuplicates(s: seq<int>) {
    forall i, j | 0 <= i < j < |s| :: s[i] != s[j]
  }

  lemma {:induction false} WithoutAbsent(s: seq<int>, x: int)
    requires x !in s
    ensures Without(s, x) == s
    decreases |s|
  {
    if |s| > 0 {
      WithoutAbsent(s[1..], x);
      assert s == [s[0]] + s[1..];
    }
  }

  /** Toggling an unselected index twice restores the selection exactly. */
  lemma ToggleAbsentTwice(selection: seq<int>, index: int)
    requires index !in selection
    ensures Toggle(Toggle(selection, index), index) == selection
  {
    WithoutAppend(selection, index);
  }

  lemma {:induction false} WithoutAppend(s: seq<int>, x: int)
    requires x !in s
    ensures Without(s + [x], x) == s
    decreases |s|
  {
    if |s| == 0 {
      assert [x][1..] == [];
    } else {
      assert (s + [x])[1..] == s[1..] + [x];
      WithoutAppend(s[1..], x);
      assert s == [s[0]] + s[1..];
    }
  }

  lemma {:induction false} WithoutKeepsDistinct(s: seq<int>, x: int)
    requires NoDuplicates(s)
    ensures NoDuplicates(Without(s, x))
    decreases |s|
  {
    if |s| > 0 {
      var rest := Without(s[1..], x);
      assert NoDuplicates(s[1..]) by {
        forall i, j | 0 <= i < j < |s[1..]|
          ensures s[1..][i] != s[1..][j]
        {
          assert s[1..][i] == s[i + 1] && s[1..][j] == s[j + 1];
        }
      }
      WithoutKeepsDistinct(s[1..], x);
      assert s[0] !in s[1..] by {
        forall k | 0 <= k < |s[1..]|
          ensures s[1..][k] != s[0]
        {
          assert s[1..][k] == s[k + 1];
        }
      }
      if s[0] != x {
        assert s[0] !in rest;
        var r := [s[0]] + rest;
        forall i, j | 0 <= i < j < |r|
          ensures r[i] != r[j]
        {
          if i == 0 {
            assert r[j] == rest[j - 1];
          } else {
            assert r[i] == rest[i - 1] && r[j] == rest[j - 1];
          }
        }
      }
    }
  }

  /** Toggling keeps a duplicate-free selection duplicate-free. */
  lemma ToggleKeepsDistinct(selection: seq<int>, index: int)
    requires NoDuplicates(selection)
    ensures NoDuplicates(Toggle(selection, index))
  {
    if index in selection {
      WithoutKeepsDistinct(selection, index);
    } else {
      var r := selection + [index];
      forall i, j | 0 <= i < j < |r|
        ensures r[i] != r[j]
      {
        if j == |selection| {
          assert r[i] == selection[i];
        } else {
          assert r[i] == selection[i] && r[j] == selection[j];
        }
      }
    }
  }

  // ---------------------------------------------------------------------
  // The checkboxes
  // ---------------------------------------------------------------------

  /** The primary slot (index 0) and disabled channels cannot be toggled. */
  predicate CheckboxDisabled(ch: Channel) {
    ch.index == 0 || ch.role == Disabled
  }

  predicate Checked(selection: seq<int>, ch: Channel) {
    ch.index in selection
  }

  /** A click on a channel's checkbox; a disabled checkbox ignores it. */
  function Click(selection: seq<int>, ch: Channel): (r: seq<int>)
    ensures CheckboxDisabled(ch) ==> r == selection
    ensures !CheckboxDisabled(ch) ==> (Checked(r, ch) <==> !Checked(selection, ch))
    ensures forall y | y != ch.index :: y in r <==> y in selection
  {
    if CheckboxDisabled(ch) then selection else Toggle(selection, ch.index)
  }

  /**
    The selection after a series of clicks on the dialog's checkboxes,
    starting from `InitialSelection`: besides 0, only an index whose enabled
    checkbox was clicked can be selected.
   */
  function SelectionAfter(clicks: seq<Channel>): (r: seq<int>)
    ensures |clicks| == 0 ==> r == InitialSelection
    ensures forall i | i in r ::
      i == 0 || exists k | 0 <= k < |clicks| :: clicks[k].index == i && !CheckboxDisabled(clicks[k])
    decreases |clicks|
  {
    if |clicks| == 0 then InitialSelection
    else
      var init := clicks[..|clicks| - 1];
      assert forall k | 0 <= k < |init| :: init[k] == clicks[k];
      Click(SelectionAfter(init), clicks[|clicks| - 1])
  }

  /**
    Whatever the user clicks, the primary channel stays selected and no index
    is selected twice.
   */
  lemma {:induction false} SelectionInvariant(clicks: seq<Channel>)
    ensures 0 in SelectionAfter(clicks)
    ensures NoDuplicates(SelectionAfter(clicks))
    decreases |clicks|
  {
    if |clicks| > 0 {
      var before := SelectionAfter(clicks[..|clicks| - 1]);
      SelectionInvariant(clicks[..|clicks| - 1]);
      var ch := clicks[|clicks| - 1];
      if !CheckboxDisabled(ch) {
        ToggleKeepsDistinct(before, ch.index);
      }
    }
  }

  // ---------------------------------------------------------------------
  // Labels
  // ---------------------------------------------------------------------

  function DigitChar(d: int): (c: char)
    requires 0 <= d < 10
    ensures '0' <= c <= '9'
  {
    (48 + d) as char
  }

  /** Decimal digits of a natural number, most significant first, no leading zeros. */
  function NatToDecimal(n: nat): (s: string)
    ensures |s| > 0
    ensures forall i | 0 <= i < |s| :: '0' <= s[i] <= '9'
    ensures s[0] == '0' ==> s == "0"
    decreases n
  {
    if n < 10 then [DigitChar(n)] else NatToDecimal(n / 10) + [DigitChar(n % 10)]
  }

  /** An integer as a template literal prints it: a '-' before negative values. */
  function IntToDecimal(n: int): (s: string)
    ensures |s| > 0
    ensures n < 0 <==> s[0] == '-'
    ensures forall i | (if n < 0 then 1 else 0) <= i < |s| :: '0' <= s[i] <= '9'
    ensures var d := if n < 0 then s[1..] else s; |d| > 0 && (d[0] == '0' ==> d == "0")
  {
    if n < 0 then "-" + NatToDecimal(-n) else NatToDecimal(n)
  }

  function DigitsValue(s: string): int
    decreases |s|
  {
    if |s| == 0 then 0
    else DigitsValue(s[..|s| - 1]) * 10 + (s[|s| - 1] as int - 48)
  }

  /** Reads back a decimal integer written by `IntToDecimal`. */
  function DecimalValue(s: string): int {
    if |s| > 0 && s[0] == '-' then -DigitsValue(s[1..]) else DigitsValue(s)
  }

  lemma {:induction false} NatDecimalRoundTrip(n: nat)
    ensures DigitsValue(NatToDecimal(n)) == n
    decreases n
  {
    if n >= 10 {
      var s := NatToDecimal(n);
      NatDecimalRoundTrip(n / 10);
      assert s[..|s| - 1] == NatToDecimal(n / 10);
    }
  }

  /** `DecimalValue` inverts `IntToDecimal`, so distinct indices print differently. */
  lemma DecimalRoundTrip(n: int)
    ensures DecimalValue(IntToDecimal(n)) == n
  {
    if n < 0 {
      NatDecimalRoundTrip(-n);
      assert IntToDecimal(n)[1..] == NatToDecimal(-n);
    } else {
      NatDecimalRoundTrip(n);
    }
  }

  const ChannelLabelPrefix: string := "Channel: "

  /** A channel without settings, or whose settings carry an empty name. */
  predicate Unnamed(ch: Channel) {
    ch.settings.None? || |ch.settings.value.name| == 0
  }

  /** A channel's checkbox label: its name, else "Primary", else its index. */
  function ChannelLabel(ch: Channel): (text: string)
    ensures |text| > 0
    ensures !Unnamed(ch) ==> text == ch.settings.value.name
    ensures Unnamed(ch) && ch.role == Primary ==> text == "Primary"
  {
    if ch.settings.Some? && |ch.settings.value.name| > 0 then ch.settings.value.name
    else if ch.role == Primary then "Primary"
    else ChannelLabelPrefix + IntToDecimal(ch.index)
  }

  /**
    An unnamed non-primary channel's label names its index: the index can be
    read back from the label.
   */
  lemma LabelShowsIndex(ch: Channel)
    requires Unnamed(ch) && ch.role != Primary
    ensures |ChannelLabel(ch)| > |ChannelLabelPrefix|
    ensures ChannelLabel(ch)[..|ChannelLabelPrefix|] == ChannelLabelPrefix
    ensures ChannelLabel(ch)[|ChannelLabelPrefix|..] == IntToDecimal(ch.index)
    ensures DecimalValue(ChannelLabel(ch)[|ChannelLabelPrefix|..]) == ch.index
  {
    var text := ChannelLabel(ch);
    assert text[|ChannelLabelPrefix|..] == IntToDecimal(ch.index);
    DecimalRoundTrip(ch.index);
  }

  /** Unnamed non-primary channels with different indices get different labels. */
  lemma LabelsDistinguishIndices(a: Channel, b: Channel)
    requires Unnamed(a) && a.role != Primary
    requires Unnamed(b) && b.role != Primary
    requires a.index != b.index
    ensures ChannelLabel(a) != ChannelLabel(b)
  {
    LabelShowsIndex(a);
    LabelShowsIndex(b);
  }
}

=== FILE: palette_search.dfy ===
/**
  The command palette's search: every command is matched by the lower-cased
  text "<group name> <command name>" containing the lower-cased query; each
  group keeps its matching commands, and groups left empty are dropped.
  Lower-casing is ASCII only.
 */
module PaletteSearch {

  /** An icon component, known only by identity. */
  datatype Icon = Icon(id: nat)

  /** A command's callback, known only by identity. */
  type ActionId = nat

  datatype Command = Command(name: string, icon: Icon, action: ActionId)

  datatype Group = Group(name: string, icon: Icon, commands: seq<Command>)

  /** `a` can be obtained from `b` by deleting elements: order is kept. */
  predicate IsSubsequence<T(==)>(a: seq<T>, b: seq<T>)
    decreases |b|
  {
    if |a| == 0 then true
    else if |b| == 0 then false
    else (a[0] == b[0] && IsSubsequence(a[1..], b[1..])) || IsSubsequence(a, b[1..])
  }

  // ---------------------------------------------------------------------
  // Case and substrings
  // ---------------------------------------------------------------------

  predicate IsUpper(c: char) {
    'A' <= c <= 'Z'
  }

  function LowerChar(c: char): (r: char)
    ensures !IsUpper(r)
    ensures IsUpper(c) ==> r as int == c as int + 32
    ensures !IsUpper(c) ==> r == c
  {
    if IsUpper(c) then (c as int + 32) as char else c
  }

  /** ASCII lower-casing, character by character. */
  function Lower(s: string): (r: string)
    ensures |r| == |s|
    ensures forall i | 0 <= i < |s| :: r[i] == LowerChar(s[i])
    decreases |s|
  {
    if |s| == 0 then "" else [LowerChar(s[0])] + Lower(s[1..])
  }

  /** Lower-casing twice is lower-casing once. */
  lemma LowerIdempotent(s: string)
    ensures Lower(Lower(s)) == Lower(s)
  {
    var once := Lower(s);
    var twice := Lower(once);
    forall i | 0 <= i < |s|
      ensures twice[i] == once[i]
    {
      assert !IsUpper(once[i]);
    }
  }

  /** `text` contains `part` as a contiguous piece (JavaScript `includes`). */
  function Contains(text: string, part: string): bool
    decreases |text|
  {
    || (|part| <= |text| && text[..|part|] == part)
    || (|text| > 0 && Contains(text[1..], part))
  }

  /** `part` occurs in `text` starting at offset `k`. */
  predicate OccursAt(text: string, part: string, k: int) {
    0 <= k && k + |part| <= |text| && text[k..k + |part|] == part
  }

  /** `Contains` finds `part` exactly when it occurs at some offset. */
  lemma {:induction false} ContainsIff(text: string, part: string)
    ensures Contains(text, part) <==> exists k :: OccursAt(text, part, k)
    decreases |text|
  {
    if |text| > 0 {
      ContainsIff(text[1..], part);
      if |part| <= |text| && text[..|part|] == part {
        assert OccursAt(text, part, 0);
      }
      if Contains(text[1..], part) {
        var k :| OccursAt(text[1..], part, k);
        assert text[k + 1..k + 1 + |part|] == text[1..][k..k + |part|];
        assert OccursAt(text, part, k + 1);
      }
      if exists k :: OccursAt(text, part, k) {
        var k :| OccursAt(text, part, k);
        if k > 0 {
          assert text[1..][k - 1..k - 1 + |part|] == text[k..k + |part|];
          assert OccursAt(text[1..], part, k - 1);
        }
      }
    } else if |part| == 0 {
      assert OccursAt(text, part, 0);
    }
  }

  // ---------------------------------------------------------------------
  // Filtering
  // ---------------------------------------------------------------------

  /** The text a command is found by: its group's name, a space, its name. */
  function SearchText(g: Group, c: Command): string {
    g.name + " " + c.name
  }

  predicate Matches(g: Group, c: Command, query: string) {
    Contains(Lower(SearchText(g, c)), Lower(query))
  }

  /** The commands of `commands` that match under group `g`, in order. */
  function MatchingCommands(g: Group, commands: seq<Command>, query: string): (r: seq<Command>)
    ensures forall c :: c in r <==> c in commands && Matches(g, c, query)
    ensures IsSubsequence(r, commands)
    ensures |commands| == 1 ==> r == (if Matches(g, commands[0], query) then commands else [])
    decreases |commands|
  {
    if |commands| == 0 then []
    else
      var rest := MatchingCommands(g, commands[1..], query);
      if Matches(g, commands[0], query) then
        var r := [commands[0]] + rest;
        assert r[1..] == rest;
        r
      else rest
  }

  /** A group cut down to its matching commands; name and icon are unchanged. */
  function Narrow(g: Group, query: string): (r: Group)
    ensures r.name == g.name && r.icon == g.icon
    ensures forall c :: c in r.commands <==> c in g.commands && Matches(g, c, query)
    ensures IsSubsequence(r.commands, g.commands)
  {
    g.(commands := MatchingCommands(g, g.commands, query))
  }

  function NarrowAll(groups: seq<Group>, query: string): (r: seq<Group>)
    ensures |r| == |groups|
    ensures forall i | 0 <= i < |groups| :: r[i] == Narrow(groups[i], query)
    decreases |groups|
  {
    if |groups| == 0 then [] else [Narrow(groups[0], query)] + NarrowAll(groups[1..], query)
  }

  /** The groups that still have commands, in order. */
  function DropEmpty(groups: seq<Group>): (r: seq<Group>)
    ensures forall g :: g in r <==> g in groups && |g.commands| > 0
    ensures IsSubsequence(r, groups)
    ensures |groups| == 1 ==> r == (if |groups[0].commands| > 0 then groups else [])
    decreases |groups|
  {
    if |groups| == 0 then []
    else
      var rest := DropEmpty(groups[1..]);
      if |groups[0].commands| > 0 then
        var r := [groups[0]] + rest;
        assert r[1..] == rest;
        r
      else rest
  }

  /** Commands are matched one by one: the result for `a + b` is the result for `a`, then for `b`. */
  lemma {:induction false} MatchingCommandsConcat(g: Group, a: seq<Command>, b: seq<Command>, query: string)
    ensures MatchingCommands(g, a + b, query) == MatchingCommands(g, a, query) + MatchingCommands(g, b, query)
    decreases |a|
  {
    if |a| == 0 {
      assert a + b == b;
    } else {
      assert (a + b)[1..] == a[1..] + b;
      MatchingCommandsConcat(g, a[1..], b, query);
    }
  }

  /** Groups are kept or dropped one by one: the result for `a + b` is the result for `a`, then for `b`. */
  lemma {:induction false} DropEmptyConcat(a: seq<Group>, b: seq<Group>)
    ensures DropEmpty(a + b) == DropEmpty(a) + DropEmpty(b)
    decreases |a|
  {
    if |a| == 0 {
      assert a + b == b;
    } else {
      assert (a + b)[1..] == a[1..] + b;
      DropEmptyConcat(a[1..], b);
    }
  }

  /**
    The palette's search results: nothing for an empty query, otherwise every
    group narrowed to its matching commands, empty groups dropped.
   */
  function Filtered(groups: seq<Group>, query: string): (r: seq<Group>)
    ensures query == "" ==> r == []
    ensures forall g | g in r :: |g.commands| > 0
    ensures query != "" ==> forall g :: g in r <==>
      |g.commands| > 0 && exists i | 0 <= i < |groups| :: g == Narrow(groups[i], query)
    ensures IsSubsequence(r, NarrowAll(groups, query)) || query == ""
  {
    if query == "" then []
    else
      var narrowed := NarrowAll(groups, query);
      var r := DropEmpty(narrowed);
      assert forall g | g in narrowed :: exists i | 0 <= i < |groups| :: g == Narrow(groups[i], query);
      r
  }

  /**
    A command is shown, under its own group, exactly when its search text
    contains the query (both lower-cased).
   */
  lemma KeptIff(groups: seq<Group>, query: string, i: int, c: Command)
    requires query != ""
    requires 0 <= i < |groups| && c in groups[i].commands
    ensures (Narrow(groups[i], query) in Filtered(groups, query) && c in Narrow(groups[i], query).commands)
      <==> Matches(groups[i], c, query)
  {
  }

  /** The results depend on the query only through its lower-cased form. */
  lemma {:induction false} MatchingSameLowered(g: Group, commands: seq<Command>, q1: string, q2: string)
    requires Lower(q1) == Lower(q2)
    ensures MatchingCommands(g, commands, q1) == MatchingCommands(g, commands, q2)
    decreases |commands|
  {
    if |commands| > 0 {
      MatchingSameLowered(g, commands[1..], q1, q2);
    }
  }

  lemma {:induction false} NarrowAllSameLowered(groups: seq<Group>, q1: string, q2: string)
    requires Lower(q1) == Lower(q2)
    ensures NarrowAll(groups, q1) == NarrowAll(groups, q2)
    decreases |groups|
  {
    if |groups| > 0 {
      MatchingSameLowered(groups[0], groups[0].commands, q1, q2);
      NarrowAllSameLowered(groups[1..], q1, q2);
    }
  }

  /** Searching for `q` and for its lower-cased form give the same results. */
  lemma FilteredIgnoresQueryCase(groups: seq<Group>, query: string)
    ensures Filtered(groups, Lower(query)) == Filtered(groups, query)
  {
    LowerIdempotent(query);
    NarrowAllSameLowered(groups, Lower(query), query);
  }
}

=== FILE: palette_state.dfy ===
/**
  The command palette's state, `(query, open)`, the events that drive it,
  and the choice of what the palette shows.
 */
module PaletteState {
  import opened PaletteSearch

  datatype State = State(query: string, open: bool)

  /** The palette starts closed with an empty query. */
  const Initial: State := State("", false)

  /** A key press with the modifier flags the handler reads. */
  datatype KeyPress = KeyPress(key: string, metaKey: bool, ctrlKey: bool)

  /** Typed text (from the combobox or the search box), or the command that was picked. */
  datatype ComboValue = Typed(text: string) | Picked(command: Command)

  datatype Event =
    | KeyDown(press: KeyPress)
    | Change(value: ComboValue)
    | DialogClose   // the dialog asks to close (Escape, click outside)
    | LeaveDone     // the closing transition has finished

  /** The new state and the command actions fired, in order. */
  datatype Reaction = Reaction(state: State, fired: seq<ActionId>)

  /** Cmd+K or Ctrl+K. */
  predicate IsOpenShortcut(e: KeyPress) {
    e.key == "k" && (e.metaKey || e.ctrlKey)
  }

  /** A key press opens the palette on the shortcut and changes nothing otherwise. */
  function HandleKeydown(s: State, e: KeyPress): (r: State)
    ensures r.query == s.query
    ensures r.open <==> s.open || IsOpenShortcut(e)
    ensures !IsOpenShortcut(e) ==> r == s
  {
    if IsOpenShortcut(e) then s.(open := true) else s
  }

  /**
    A combobox change: text becomes the query and leaves `open` alone; a
    picked command closes the palette and fires its action exactly once.
   */
  function OnChange(s: State, value: ComboValue): (r: Reaction)
    ensures value.Typed? ==> r.state == State(value.text, s.open) && r.fired == []
    ensures value.Picked? ==> r.state == State(s.query, false) && r.fired == [value.command.action]
  {
    match value
    case Typed(text) => Reaction(s.(query := text), [])
    case Picked(command) => Reaction(s.(open := false), [command.action])
  }

  /**
    One event. The dialog's close request only closes the palette; the end of
    the closing transition only clears the query; only a pick fires anything.
   */
  function Step(s: State, e: Event): (r: Reaction)
    ensures e.DialogClose? ==> r == Reaction(State(s.query, false), [])
    ensures e.LeaveDone? ==> r == Reaction(State("", s.open), [])
    ensures !(e.Change? && e.value.Picked?) ==> r.fired == []
  {
    match e
    case KeyDown(press) => Reaction(HandleKeydown(s, press), [])
    case Change(value) => OnChange(s, value)
    case DialogClose => Reaction(s.(open := false), [])
    case LeaveDone => Reaction(s.(query := ""), [])
  }

  /**
    Events applied in order; the fired actions are collected in order. A run
    that ends with the closing transition ends with an empty query, and one
    that ends with a close request ends closed.
   */
  function Run(s: State, events: seq<Event>): (r: Reaction)
    ensures |events| == 0 ==> r == Reaction(s, [])
    ensures |events| > 0 && events[|events| - 1].LeaveDone? ==> r.state.query == ""
    ensures |events| > 0 && events[|events| - 1].DialogClose? ==> !r.state.open
    ensures |r.fired| <= |events|
    decreases |events|
  {
    if |events| == 0 then Reaction(s, [])
    else
      var before := Run(s, events[..|events| - 1]);
      var last := Step(before.state, events[|events| - 1]);
      Reaction(last.state, before.fired + last.fired)
  }

  /** The actions of the picked commands among `events`, in order. */
  function PickedActions(events: seq<Event>): seq<ActionId>
    decreases |events|
  {
    if |events| == 0 then []
    else
      var e := events[0];
      (if e.Change? && e.value.Picked? then [e.value.command.action] else [])
        + PickedActions(events[1..])
  }

  lemma {:induction false} PickedActionsSnoc(events: seq<Event>, e: Event)
    ensures PickedActions(events + [e]) ==
      PickedActions(events) + (if e.Change? && e.value.Picked? then [e.value.command.action] else [])
    decreases |events|
  {
    if |events| == 0 {
      assert [e][1..] == [];
    } else {
      assert (events + [e])[1..] == events[1..] + [e];
      PickedActionsSnoc(events[1..], e);
    }
  }

  /** Every picked command fires its action once, in pick order, and nothing else fires. */
  lemma {:induction false} RunFiresPickedActions(s: State, events: seq<Event>)
    ensures Run(s, events).fired == PickedActions(events)
    decreases |events|
  {
    if |events| > 0 {
      var init := events[..|events| - 1];
      var e := events[|events| - 1];
      RunFiresPickedActions(s, init);
      PickedActionsSnoc(init, e);
      assert init + [e] == events;
    }
  }

  /** The palette only opens through the Cmd/Ctrl+K shortcut. */
  lemma {:induction false} OpenOnlyByShortcut(s: State, events: seq<Event>)
    requires !s.open && Run(s, events).state.open
    ensures exists i | 0 <= i < |events| :: events[i].KeyDown? && IsOpenShortcut(events[i].press)
    decreases |events|
  {
    var init := events[..|events| - 1];
    var e := events[|events| - 1];
    if e.KeyDown? && IsOpenShortcut(e.press) {
      assert events[|events| - 1] == e;
    } else {
      OpenOnlyByShortcut(s, init);
      var i :| 0 <= i < |init| && init[i].KeyDown? && IsOpenShortcut(init[i].press);
      assert events[i] == init[i];
    }
  }

  /** From the initial closed state, the palette is open only after a Cmd/Ctrl+K press. */
  lemma OpenFromInitial(events: seq<Event>)
    requires Run(Initial, events).state.open
    ensures exists i | 0 <= i < |events| :: events[i].KeyDown? && IsOpenShortcut(events[i].press)
  {
    OpenOnlyByShortcut(Initial, events);
  }

  /** Picking a command leaves the palette closed; once it has left, the query is empty. */
  lemma PickThenLeave(s: State, c: Command)
    ensures Run(s, [Change(Picked(c))]).state.open == false
    ensures Run(s, [Change(Picked(c)), LeaveDone]) == Reaction(State("", false), [c.action])
  {
    assert [Change(Picked(c)), LeaveDone][..1] == [Change(Picked(c))];
    assert [Change(Picked(c))][..0] == [];
  }

  // ---------------------------------------------------------------------
  // What is shown
  // ---------------------------------------------------------------------

  /**
    The options list (search results, then the full group list when the
    query is empty) or the no-results message.
   */
  datatype View = Listing(results: seq<Group>, browse: seq<Group>) | NoResults

  function ViewOf(groups: seq<Group>, query: string): (v: View)
    ensures v.Listing? ==> v.results == Filtered(groups, query)
    ensures v.Listing? ==> v.browse == (if query == "" then groups else [])
  {
    var filtered := Filtered(groups, query);
    if query == "" || |filtered| > 0 then
      Listing(filtered, if query == "" then groups else [])
    else NoResults
  }

  /** Some command of some group matches the query. */
  predicate AnyMatch(groups: seq<Group>, query: string) {
    exists i, c | 0 <= i < |groups| && c in groups[i].commands :: Matches(groups[i], c, query)
  }

  lemma FilteredNonEmptyIff(groups: seq<Group>, query: string)
    requires query != ""
    ensures |Filtered(groups, query)| > 0 <==> AnyMatch(groups, query)
  {
    var r := Filtered(groups, query);
    if AnyMatch(groups, query) {
      var i, c :| 0 <= i < |groups| && c in groups[i].commands && Matches(groups[i], c, query);
      assert c in Narrow(groups[i], query).commands;
      assert Narrow(groups[i], query) in r;
    }
    if |r| > 0 {
      var g := r[0];
      assert g in r;
      var i :| 0 <= i < |groups| && g == Narrow(groups[i], query);
      var c := g.commands[0];
      assert c in groups[i].commands && Matches(groups[i], c, query);
    }
  }

  /**
    The full group list is shown exactly when the query is empty; search
    results exactly when the query is non-empty and some command matches;
    the no-results message exactly when it is non-empty and nothing matches.
   */
  lemma ViewChoice(groups: seq<Group>, query: string)
    ensures ViewOf(groups, query) == Listing([], groups) <==> query == ""
    ensures (ViewOf(groups, query).Listing? && |ViewOf(groups, query).results| > 0)
      <==> query != "" && AnyMatch(groups, query)
    ensures ViewOf(groups, query).NoResults? <==> query != "" && !AnyMatch(groups, query)
  {
    if query != "" {
      FilteredNonEmptyIff(groups, query);
    }
  }
}

=== FILE: url_token.dfy ===
/**
  The URL-safe share token: standard base64 of the payload with every '='
  removed, then '+' turned into '-' and '/' into '_' (the alphabet of
  section 5 of RFC 4648, unpadded as section 3.2 allows). `DecodeToken` is
  the strict decoder defined here as `Token`'s partner (the program itself
  never decodes): it restores the padding, maps the alphabet back and
  decodes, and accepts exactly the tokens `Token` produces.
 */
module UrlToken {
  import opened Wrappers
  import opened Base64

  /** A character of the URL-safe alphabet: A-Z, a-z, 0-9, '-' and '_'. */
  predicate IsUrlSafeChar(c: char) {
    || 'A' <= c <= 'Z'
    || 'a' <= c <= 'z'
    || '0' <= c <= '9'
    || c == '-'
    || c == '_'
  }

  predicate AllUrlSafe(s: string) {
    forall i | 0 <= i < |s| :: IsUrlSafeChar(s[i])
  }

  predicate AllAlphabet(s: string) {
    forall i | 0 <= i < |s| :: IsAlphabetChar(s[i])
  }

  /** `s` with every occurrence of `c` dropped (a global `replace(c, "")`). */
  function RemoveAll(s: string, c: char): (r: string)
    ensures c !in r
    ensures forall x :: x in r <==> x in s && x != c
    ensures c !in s ==> r == s
    decreases |s|
  {
    if |s| == 0 then ""
    else if s[0] == c then RemoveAll(s[1..], c)
    else [s[0]] + RemoveAll(s[1..], c)
  }

  /** `s` with every occurrence of `from` replaced by `to` (a global `replace`). */
  function ReplaceAll(s: string, from: char, to: char): (r: string)
    ensures |r| == |s|
    ensures forall i | 0 <= i < |s| :: r[i] == (if s[i] == from then to else s[i])
    decreases |s|
  {
    if |s| == 0 then ""
    else [if s[0] == from then to else s[0]] + ReplaceAll(s[1..], from, to)
  }

  /** Standard alphabet to URL-safe alphabet. */
  function ToUrlAlphabet(s: string): string {
    ReplaceAll(ReplaceAll(s, '+', '-'), '/', '_')
  }

  /** URL-safe alphabet back to the standard alphabet. */
  function FromUrlAlphabet(t: string): string {
    ReplaceAll(ReplaceAll(t, '-', '+'), '_', '/')
  }

  /** The token for a payload: padding stripped first, then the two substitutions. */
  function Token(bytes: seq<uint8>): (t: string)
    ensures '=' !in t
    ensures forall i | 0 <= i < |t| :: t[i] != '+' && t[i] != '/'
  {
    ToUrlAlphabet(RemoveAll(Encode(bytes), '='))
  }

  /** The number of '=' that bring a length up to a multiple of four. */
  function MissingPadding(n: nat): (k: nat)
    ensures k < 4
  {
    if n % 4 == 0 then 0 else 4 - n % 4
  }

  function Padding(k: nat): (p: string)
    ensures |p| == k
    ensures forall i | 0 <= i < k :: p[i] == '='
  {
    seq(k, _ => '=')
  }

  /** The first character that is not URL-safe, '=' if there is none. */
  function FirstUnsafe(t: string): char
    decreases |t|
  {
    if |t| == 0 then '='
    else if !IsUrlSafeChar(t[0]) then t[0]
    else FirstUnsafe(t[1..])
  }

  /** Reads a token back into the payload it encodes. */
  function DecodeToken(t: string): (r: Result<seq<uint8>, DecodeError>)
    ensures !AllUrlSafe(t) ==> r.Failure?
  {
    if !AllUrlSafe(t) then Failure(BadChar(FirstUnsafe(t)))
    else
      var s := FromUrlAlphabet(t);
      Decode(s + Padding(MissingPadding(|s|)))
  }

  lemma {:induction false} RemoveAllConcat(a: string, b: string, c: char)
    ensures RemoveAll(a + b, c) == RemoveAll(a, c) + RemoveAll(b, c)
    decreases |a|
  {
    if |a| > 0 {
      assert (a + b)[1..] == a[1..] + b;
      RemoveAllConcat(a[1..], b, c);
    } else {
      assert a + b == b;
    }
  }

  lemma {:induction false} RemoveAllOnly(s: string, c: char)
    requires forall i | 0 <= i < |s| :: s[i] == c
    ensures RemoveAll(s, c) == ""
    decreases |s|
  {
    if |s| > 0 {
      RemoveAllOnly(s[1..], c);
    }
  }

  /** The encoding split into its alphabet body and its padding. */
  function Body(bytes: seq<uint8>): (body: string)
    ensures |body| == |Encode(bytes)| - PadCount(|bytes|)
    ensures AllAlphabet(body)
    ensures Encode(bytes) == body + Padding(PadCount(|bytes|))
  {
    var s := Encode(bytes);
    EncodeShape(bytes);
    var body := s[..|s| - PadCount(|bytes|)];
    assert s == body + Padding(PadCount(|bytes|));
    body
  }

  /** Stripping the padding leaves exactly the body of the encoding. */
  lemma StripPadding(bytes: seq<uint8>)
    ensures RemoveAll(Encode(bytes), '=') == Body(bytes)
  {
    var body := Body(bytes);
    var pad := Padding(PadCount(|bytes|));
    RemoveAllConcat(body, pad, '=');
    RemoveAllOnly(pad, '=');
  }

  /** Every token character is in the URL-safe alphabet: no '+', '/' or '='. */
  lemma TokenAlphabet(bytes: seq<uint8>)
    ensures AllUrlSafe(Token(bytes))
    ensures forall i | 0 <= i < |Token(bytes)| :: Token(bytes)[i] !in "+/="
  {
    StripPadding(bytes);
    var body := Body(bytes);
    var t := Token(bytes);
    forall i | 0 <= i < |t|
      ensures IsUrlSafeChar(t[i]) && t[i] !in "+/="
    {
      assert IsAlphabetChar(body[i]);
    }
  }

  /** For an encoding of `m` characters of `n` bytes: the body length, and the padding that restores it. */
  lemma PadArithmetic(n: nat, m: nat)
    requires 3 * m == 4 * (n + PadCount(n))
    ensures m - PadCount(n) ==
      4 * (n / 3) + (if n % 3 == 0 then 0 else if n % 3 == 1 then 2 else 3)
    ensures MissingPadding(m - PadCount(n)) == PadCount(n)
  {
    var q, r := n / 3, n % 3;
    assert n == 3 * q + r;
    if r == 0 {
      assert m == 4 * q;
    } else if r == 1 {
      assert m == 4 * q + 4;
      assert m - 2 == 4 * q + 2;
    } else {
      assert m == 4 * q + 4;
      assert m - 1 == 4 * q + 3;
    }
  }

  /** A token for `n` bytes has 4 * (n / 3) characters plus 0, 2 or 3 for the remainder. */
  lemma TokenLength(bytes: seq<uint8>)
    ensures var n := |bytes|;
      |Token(bytes)| == 4 * (n / 3) + (if n % 3 == 0 then 0 else if n % 3 == 1 then 2 else 3)
  {
    StripPadding(bytes);
    PadArithmetic(|bytes|, |Encode(bytes)|);
  }

  /** URL-safe strings survive the trip to the standard alphabet and back. */
  lemma UrlAlphabetRoundTrip(t: string)
    requires AllUrlSafe(t)
    ensures AllAlphabet(FromUrlAlphabet(t))
    ensures ToUrlAlphabet(FromUrlAlphabet(t)) == t
  {
    var s := FromUrlAlphabet(t);
    forall i | 0 <= i < |t|
      ensures IsAlphabetChar(s[i])
    {
      assert IsUrlSafeChar(t[i]);
    }
  }

  /** Alphabet strings survive the trip to the URL-safe alphabet and back. */
  lemma StandardAlphabetRoundTrip(s: string)
    requires AllAlphabet(s)
    ensures AllUrlSafe(ToUrlAlphabet(s))
    ensures FromUrlAlphabet(ToUrlAlphabet(s)) == s
  {
    var t := ToUrlAlphabet(s);
    forall i | 0 <= i < |s|
      ensures IsUrlSafeChar(t[i])
    {
      assert IsAlphabetChar(s[i]);
    }
  }

  /** Decoding a token gives back exactly the bytes it was built from. */
  lemma DecodeTokenRoundTrip(bytes: seq<uint8>)
    ensures DecodeToken(Token(bytes)) == Success(bytes)
  {
    var body := Body(bytes);
    StripPadding(bytes);
    StandardAlphabetRoundTrip(body);
    PadArithmetic(|bytes|, |Encode(bytes)|);
    DecodeEncode(bytes);
  }

  /** Only tokens decode: a token that decodes to `bytes` is `Token(bytes)`. */
  lemma DecodeTokenCanonical(t: string, bytes: seq<uint8>)
    requires DecodeToken(t) == Success(bytes)
    ensures t == Token(bytes)
  {
    var s := FromUrlAlphabet(t);
    var pad := Padding(MissingPadding(|s|));
    UrlAlphabetRoundTrip(t);
    EncodeDecode(s + pad, bytes);
    RemoveAllConcat(s, pad, '=');
    RemoveAllOnly(pad, '=');
  }

  /** `DecodeToken` and `Token` are inverse bijections. */
  lemma DecodeTokenIff(t: string, bytes: seq<uint8>)
    ensures DecodeToken(t) == Success(bytes) <==> t == Token(bytes)
  {
    if t == Token(bytes) {
      DecodeTokenRoundTrip(bytes);
    }
    if DecodeToken(t) == Success(bytes) {
      DecodeTokenCanonical(t, bytes);
    }
  }
}

=== FILE: wrappers.dfy ===
/** Option and Result values for the error paths of the model. */
module Wrappers {

  datatype Option<+T> = None | Some(value: T)

  datatype Result<+T, +E> = Success(value: T) | Failure(error: E)
}
